=== FILE: README.md ===
# Word autocomplete: query controller and selection navigation

This project models the two state engines of a search-suggestion widget, and
proves properties about them.

- **Query lifecycle controller** (`useAutocomplete`). It turns the text the
  user types into a list of suggested words. It keeps a per-instance cache
  keyed by `"<query>:<limit>"`. Each cache entry has a time stamp, and an entry
  younger than the time-to-live is served without a lookup. A debounce slot
  holds at most one pending request.
- **Selection navigation state machine** (`useAutocompleteNavigation`). It
  keeps the highlighted index (-1 for none) and the open flag of the dropdown
  over the current result list. It reacts to key presses, to the result list
  being replaced, to pointer presses anywhere in the document, and to two raw
  setters.

Both are pure transition functions over immutable records:

- The clock is an explicit `now` argument.
- A fetch is split in two steps. `FetchResults` checks the cache, evicts a
  stale entry, raises the loading flag and returns the `Request` it dispatched.
  `Complete` takes that request and the lookup's `Outcome`
  (`Ok(body)` or `Fail(message)`). Other events may happen between the two.
- The debounce timer is the `pending` slot of the state. `Fire(now)` is the
  timer queue running at a given time.
- DOM containment is reduced to two booleans: whether the container is mounted
  and whether the press landed inside it.

Files:

- `wrappers.dfy`: `Option`.
- `js_text.dfy`: the ECMAScript whitespace set that `trim` strips, and the
  decimal rendering of integers in template literals. Each is proved against
  an independent definition: blankness, and a decimal parser.
- `autocomplete.dfy`: the controller's data, configuration, cache key,
  fetch steps and debounce.
- `autocomplete_lemmas.dfy`: properties relating several controller calls.
- `controller_runs.dfy`: runs of the controller. Any mix of typing, direct and
  debounced fetches, timer runs and lookups settling is allowed, and the
  lookups in flight may settle in any order. It also holds the invariant every
  reachable state keeps.
- `navigation.dfy`: the navigation state machine, its event traces and the
  range invariant of the highlight.

Behaviour of the hooks the model keeps:

- A response body that is not valid JSON makes `response.json()` reject. The
  error path then runs and shows that rejection's message (`FetchFromApi`).
- Only the start of a fetch clears `error`. A successful completion leaves
  `error` as it is (`Complete`). A fetch awaited on its own still ends with
  `error` cleared (`SuccessfulLookup`).
- The completion step writes whatever has happened in the meantime. A late
  answer can overwrite the clearing done by a blank query
  (`LateAnswerOverwritesClear`). The hook has no stale-response guard.
- The outside-press rule closes the dropdown only when the container element
  is mounted. It does so whether or not the dropdown was open.
- ArrowDown is `min(i + 1, n - 1)` for every index up to `n - 1`, including
  indices below -1. An index above the list, set through the unchecked setter,
  stays where it is. At
  `results[i]` past the end, Enter passes `undefined` to `onSelect`. The model
  calls this `Selected.Undefined` (`HandleKey`). It proves that a run in which
  every call of the raw index setter names an index on the current list never
  reaches it. The hover highlight makes exactly such calls.

## Model

| member | source | states |
|---|---|---|
| JsText.TrimStart | hooks/useAutocomplete.ts:50 | the result is a suffix of the input, everything removed is whitespace, and it does not start with whitespace |
| JsText.TrimEnd | hooks/useAutocomplete.ts:50 | the result is a prefix of the input, everything removed is whitespace, and it does not end with whitespace |
| JsText.TrimEmptyIffBlank | hooks/useAutocomplete.ts:50 | `!q.trim()` holds exactly when every character of `q` is ECMAScript whitespace |
| JsText.NatToString | hooks/useAutocomplete.ts:56 | a natural number renders as a non-empty digit string with no leading zero |
| JsText.IntToString | hooks/useAutocomplete.ts:56 | an integer renders as a minus sign exactly when it is negative, then at least one digit of its magnitude with no leading zero |
| JsText.ParseNatRoundTrip | hooks/useAutocomplete.ts:56 | reading back the decimal rendering of a natural number gives the number |
| JsText.ParseIntRoundTrip | hooks/useAutocomplete.ts:56 | reading back the rendering of any integer gives the integer |
| JsText.IntToStringInjective | hooks/useAutocomplete.ts:56 | two integers render the same exactly when they are equal |
| Autocomplete.Configure | hooks/useAutocomplete.ts:21 | each absent option takes its default (limit 8, debounce 200 ms, time-to-live 30000 ms), and each given option is kept |
| Autocomplete.Expose | hooks/useAutocomplete.ts:122-132 | the hook exposes the configured time-to-live and the current query, results, loading flag, error and cache |
| Autocomplete.SetQuery | hooks/useAutocomplete.ts:23 | `setQuery` records the new text and changes nothing else: no fetch, no cache access |
| Autocomplete.CacheKeyRoundTrip | hooks/useAutocomplete.ts:56 | splitting `"<query>:<limit>"` at its last colon gives back the query and the limit, even when the query has colons |
| Autocomplete.CacheKeyInjective | hooks/useAutocomplete.ts:56 | two cache keys are equal exactly when both queries and both limits are equal |
| Autocomplete.ErrorMessage | hooks/useAutocomplete.ts:87-89 | an `Error` contributes its message, and any other thrown value gives "Unknown error occurred" |
| Autocomplete.FetchFromApi | hooks/useAutocomplete.ts:32-45 | the outcome is a success exactly when the response is ok and its body parses, and then carries that body. A non-ok status fails with "API error: <status>". A body that does not parse fails with the parse error's message, and a rejection fails with its message |
| Autocomplete.FetchResults | hooks/useAutocomplete.ts:49-76 | no lookup is dispatched exactly when the query is blank or a fresh entry exists. A blank query clears results and error. A fresh entry is shown with error cleared. Otherwise the key is evicted, loading is raised, error is cleared, and the request carries the key and the start time |
| Autocomplete.Complete | hooks/useAutocomplete.ts:77-94 | loading always ends. Success shows the body (empty for `null`), stores it under the request's key with the start time, and keeps the error. Failure shows the message, empties the results and leaves the cache alone |
| Autocomplete.DueTime | hooks/useAutocomplete.ts:106-108 | a timer with a negative delay is due at once (the delay is clamped to zero), and otherwise it is due after the configured delay |
| Autocomplete.DebouncedFetch | hooks/useAutocomplete.ts:100-111 | the one pending timer is replaced by one for the new text, and nothing else changes |
| Autocomplete.Fire | hooks/useAutocomplete.ts:106-108 | `fetchResults` runs exactly when a timer is pending and due, and uses its text. The slot is then empty. Otherwise nothing happens |
| AutocompleteLemmas.DefaultsAndExposedTTL | hooks/useAutocomplete.ts:21 | the defaults are 8, 200 and 30000, and the exposed time-to-live is the configured one or 30000 |
| AutocompleteLemmas.BlankQueryClears | hooks/useAutocomplete.ts:50-54 | in any state, a blank query empties the results and clears the error. It makes no lookup and leaves loading, the cache, the query and the debounce slot unchanged |
| AutocompleteLemmas.SuccessfulLookup | hooks/useAutocomplete.ts:75-94 | a successful lookup shows its data and caches it under the key with the pre-lookup time; the error is clear and loading has ended |
| AutocompleteLemmas.FailedLookup | hooks/useAutocomplete.ts:87-94 | a failed lookup shows its message and no results, ends loading, and leaves no entry for the key |
| AutocompleteLemmas.NonOkStatusIsAnError | hooks/useAutocomplete.ts:39-41 | a non-ok status ends the fetch with error "API error: <status>" and no results |
| AutocompleteLemmas.RepeatWithinTTLServedFromCache | hooks/useAutocomplete.ts:60-68 | repeating a looked-up query within the time-to-live makes no second lookup. It shows the same results, clears the error, and changes neither loading nor the cache |
| AutocompleteLemmas.ExpiredEntryRefetched | hooks/useAutocomplete.ts:69-84 | at or past the time-to-live, the entry is evicted and a new lookup is dispatched. After it succeeds, the key holds the new data and the new time stamp |
| AutocompleteLemmas.CompletionTouchesOnlyItsKey | hooks/useAutocomplete.ts:81-84 | storing one lookup's answer leaves every other key's entry as it was |
| AutocompleteLemmas.LookupsDoNotShareEntries | hooks/useAutocomplete.ts:56-84 | a lookup never alters the entry of another query, nor the entry of the same query under another limit |
| AutocompleteLemmas.LookupScenario | __tests__/hooks/useAutocomplete.test.ts:72-98 | with limit 5, a lookup of "test" returning two words shows both, clears loading and error, and caches them under "test:5" |
| AutocompleteLemmas.LateAnswerOverwritesClear | hooks/useAutocomplete.ts:78-94 | an answer that settles after a blank query has cleared the list puts its words back on screen |
| AutocompleteLemmas.DebounceKeepsOnlyLast | hooks/useAutocomplete.ts:100-111 | after any non-empty run of debounced calls, one timer is pending with the last call's text and due time, and nothing else changed |
| AutocompleteLemmas.DebounceFiresOnceWithLastText | hooks/useAutocomplete.ts:100-111 | after N debounced calls, a timer run fires exactly when the last call's delay has elapsed, and uses the last call's text; a further run fires nothing |
| ControllerRuns.FetchDispatchesValid | hooks/useAutocomplete.ts:50-78 | every lookup a fetch dispatches is for a non-blank query, under that query's key with the configured limit |
| ControllerRuns.CompleteKeepsKeys | hooks/useAutocomplete.ts:81-84 | storing the answer to a well-formed lookup keeps every cache key a non-blank query under the configured limit |
| ControllerRuns.StartKeepsValid | hooks/useAutocomplete.ts:49-76 | starting a fetch, directly or from the timer, keeps the invariant. The cache only loses entries, and a dispatched lookup joins those in flight |
| ControllerRuns.SettleKeepsValid | hooks/useAutocomplete.ts:77-94 | settling any one of the lookups in flight keeps the invariant |
| ControllerRuns.StepKeepsValid | hooks/useAutocomplete.ts:47-111 | every controller event keeps the invariant: loading only while a lookup is in flight, well-formed requests, well-formed cache keys |
| ControllerRuns.RunKeepsValid | hooks/useAutocomplete.ts:47-111 | the invariant holds along every run from a valid controller |
| ControllerRuns.ReachableFromInitial | hooks/useAutocomplete.ts:23-111 | from a freshly mounted controller, no cache entry ever belongs to a blank query or another limit, and loading is off whenever nothing is in flight |
| Navigation.At | hooks/useAutocompleteNavigation.ts:31 | `results[i]` is the item for an index on the list and `undefined` past its end |
| Navigation.KeyOf | hooks/useAutocompleteNavigation.ts:17-39 | the four handled key names map to their own cases, and every other name maps to the no-op case |
| Navigation.HandleKey | hooks/useAutocompleteNavigation.ts:10-43 | closed or empty, every key changes nothing. `preventDefault` is called exactly for the arrows and Enter, and `onSelect` exactly for Enter with a highlight. Only Escape closes, and Enter and other keys leave the state alone |
| Navigation.ResultsReplaced | hooks/useAutocompleteNavigation.ts:61-63 | a replaced list always drops the highlight to -1, which is in range over any list, and keeps the open flag |
| Navigation.PointerDown | hooks/useAutocompleteNavigation.ts:46-58 | a press closes the dropdown exactly when the container is mounted and the press is outside it; the highlight is never touched |
| Navigation.ArrowDownClamps | hooks/useAutocompleteNavigation.ts:18-23 | for any index up to `n - 1`, ArrowDown gives `min(i + 1, n - 1)`. It stays open, prevents the default, selects nothing and keeps an in-range highlight in range |
| Navigation.ArrowUpClamps | hooks/useAutocompleteNavigation.ts:24-27 | ArrowUp gives `max(i - 1, -1)` from any index. It stays open, prevents the default, selects nothing and keeps the highlight in range |
| Navigation.ArrowUpUndoesArrowDown | hooks/useAutocompleteNavigation.ts:18-27 | when ArrowDown moves the highlight, ArrowUp moves it back |
| Navigation.ArrowDownUndoesArrowUp | hooks/useAutocompleteNavigation.ts:18-27 | when ArrowUp moves the highlight off a list item, ArrowDown moves it back |
| Navigation.ArrowDownPresses | hooks/useAutocompleteNavigation.ts:18-23 | k ArrowDown presses from an in-range index land on `min(i + k, n - 1)` |
| Navigation.ArrowUpPresses | hooks/useAutocompleteNavigation.ts:24-27 | k ArrowUp presses from an in-range index land on `max(i - k, -1)` |
| Navigation.EnterSelectsHighlighted | hooks/useAutocompleteNavigation.ts:28-33 | Enter always prevents the default and keeps the state. It calls `onSelect` exactly when the index is at least 0, and with exactly `results[i]` |
| Navigation.EscapeClosesAndClears | hooks/useAutocompleteNavigation.ts:34-37 | Escape closes and sets the index to -1 in one step, and does not prevent the default |
| Navigation.StepKeepsValid | hooks/useAutocompleteNavigation.ts:5-67 | every event keeps `-1 <= selectedIndex < n`, except the raw index setter, which keeps it exactly when given an in-range index |
| Navigation.RunKeepsValid | hooks/useAutocompleteNavigation.ts:15-67 | any run of keys, list replacements, pointer presses, open/close calls and index-setter calls naming an index on the current list keeps `-1 <= selectedIndex < n` |
| Navigation.InitialValid | hooks/useAutocompleteNavigation.ts:5-6 | the initial state, -1 and closed, is in range over every list |
| Navigation.EnterAfterRunSelectsItem | hooks/useAutocompleteNavigation.ts:28-33 | after such a run from the initial state (hover highlights included), Enter never passes `undefined` to `onSelect` |

## Left out

- The HTTP request, URL building and `encodeURIComponent` (hooks/useAutocomplete.ts:32-38). These are reduced to how the request settled (`Settled`) and the resulting `Outcome`.
- `Date.now`, real timers and clearing the timer on unmount (hooks/useAutocomplete.ts:114-120). The clock is an argument, and the timer queue is the explicit `Fire` event.
- Browser clamping of delays above 2^31 - 1 ms. Only the clamping of negative delays to zero is modelled.
- React's hook machinery: the reference identity of the results array, render timing, the registration of the document listener, and DOM `contains`. `NewResults` stands for one change of the array reference. Containment is the booleans `attached` and `inside`.
- Any ordering guarantee between overlapping lookups. The hook gives none, so `ControllerRuns` lets the lookups in flight settle in any order, and nothing is proved about which answer ends up on screen.
- Options that change between renders. The hook re-reads `options` on every render, while its cache survives re-renders. The model fixes one `Config` for the instance's whole life, as the page does by passing constants. `ControllerRuns.ReachableFromInitial`'s "no entry under another limit" relies on this.
- Dynamic extra fields on `Word`. A word is an optional string and an optional frequency.
- Numbers are integers. Non-integral limits, statuses or time stamps are not modelled, and neither is the exponent notation JavaScript uses for magnitudes of 10^21 and above.
- JSON bodies other than a list of words, `null` or a parse failure (for example `false`, `0`, or an object) are not modelled.
- The cache is returned as a value snapshot. It is not a live, mutable map.
- The rendering components and the page that wires the two hooks together are presentation and glue, not state logic, so they are not part of this model.

=== FILE: autocomplete.dfy ===
/** The query lifecycle controller of `useAutocomplete`: a per-instance cache of
    lookups keyed by `"<query>:<limit>"` with a time-to-live, a fetch that is split
    into a start step (cache check, eviction, loading flag) and a completion step
    (the lookup's outcome), and a debounce slot holding at most one pending
    request. The clock is an explicit `now` argument and the remote lookup is an
    outcome value handed to the completion step. */
module Autocomplete {
  import opened Wrappers
  import opened JsText

  /** One suggestion; both fields may be absent in what the service returns. */
  datatype Word = Word(word: Option<string>, frequency: Option<int>)

  /** A memoised lookup and the clock reading taken when that lookup started. */
  datatype CacheEntry = CacheEntry(data: seq<Word>, timestamp: int)

  /** The options object; an absent field takes its default. */
  datatype Options = Options(limit: Option<int>, debounceMs: Option<int>, cacheTTL: Option<int>)

  /** The options after defaults are applied. */
  datatype Config = Config(limit: int, debounceMs: int, cacheTTL: int)

  const DefaultLimit := 8
  const DefaultDebounceMs := 200
  const DefaultCacheTTL := 30000

  /** The debounce timer: the text it will fetch and the earliest time it can fire. */
  datatype Timer = Timer(searchQuery: string, due: int)

  /** Everything one controller instance holds between events. */
  datatype State = State(
    query: string,
    results: seq<Word>,
    isLoading: bool,
    error: Option<string>,
    cache: map<string, CacheEntry>,
    pending: Option<Timer>)

  /** The state of a freshly mounted controller. */
  const Initial := State("", [], false, None, map[], None)

  /** A lookup that has been dispatched and not yet settled: what it asked for,
      the cache key its answer will be stored under, and the clock reading taken
      before it was sent. */
  datatype Request = Request(searchQuery: string, key: string, startedAt: int)

  /** How a dispatched lookup settled, as seen by the completion step: a body
      (`None` is a JSON `null`) or an error message. */
  datatype Outcome = Ok(body: Option<seq<Word>>) | Fail(message: string)

  /** What the fetch's promise can be rejected with: an `Error` (which has a
      message) or any other thrown value. */
  datatype Thrown = ErrorObject(message: string) | OtherValue

  /** What `response.json()` produces: a list or `null`, or a parse failure. */
  datatype Body = Parsed(value: Option<seq<Word>>) | Malformed(parseError: string)

  /** How the HTTP request settled. */
  datatype Settled = Rejected(reason: Thrown) | Resolved(ok: bool, status: int, body: Body)

  /** The result of a fetch's start step, and the lookup it dispatched, if any. */
  datatype Started = Started(state: State, request: Option<Request>)

  /** The result of a timer event: the new state, the text `fetchResults` was
      invoked with (if the timer fired), and the lookup that invocation dispatched. */
  datatype Fired = Fired(state: State, invoked: Option<string>, request: Option<Request>)

  /** What the hook hands to its caller, besides the two fetch operations. */
  datatype View = View(
    query: string,
    results: seq<Word>,
    isLoading: bool,
    error: Option<string>,
    cache: map<string, CacheEntry>,
    cacheTTL: int)

  /** Applies the defaults 8, 200 and 30000 to every absent option. */
  function Configure(o: Options): (c: Config)
    ensures o.limit.None? ==> c.limit == DefaultLimit
    ensures o.debounceMs.None? ==> c.debounceMs == DefaultDebounceMs
    ensures o.cacheTTL.None? ==> c.cacheTTL == DefaultCacheTTL
    ensures o.limit.Some? ==> c.limit == o.limit.value
    ensures o.debounceMs.Some? ==> c.debounceMs == o.debounceMs.value
    ensures o.cacheTTL.Some? ==> c.cacheTTL == o.cacheTTL.value
  {
    Config(
      o.limit.GetOr(DefaultLimit),
      o.debounceMs.GetOr(DefaultDebounceMs),
      o.cacheTTL.GetOr(DefaultCacheTTL))
  }

  /** The hook's return value for a state. */
  function Expose(c: Config, s: State): (v: View)
    ensures v.cacheTTL == c.cacheTTL
    ensures v.cache == s.cache && v.results == s.results && v.query == s.query
    ensures v.isLoading == s.isLoading && v.error == s.error
  {
    View(s.query, s.results, s.isLoading, s.error, s.cache, c.cacheTTL)
  }

  /** The cache key for a query under a limit: the query, a colon, the limit in decimal. */
  function CacheKey(searchQuery: string, limit: int): string {
    searchQuery + ":" + IntToString(limit)
  }

  /** The position of the last colon in `s`, if there is one. */
  function LastColon(s: string): (r: Option<nat>)
    ensures r.Some? ==> r.value < |s| && s[r.value] == ':'
    ensures r.Some? ==> forall k | r.value < k < |s| :: s[k] != ':'
    ensures r.None? ==> forall k | 0 <= k < |s| :: s[k] != ':'
    decreases |s|
  {
    if |s| == 0 then None
    else if s[|s| - 1] == ':' then Some(|s| - 1)
    else LastColon(s[..|s| - 1])
  }

  datatype KeyParts = KeyParts(searchQuery: string, limit: int)

  /** Splits a cache key at its last colon back into query and limit. */
  function ParseKey(key: string): Option<KeyParts> {
    match LastColon(key)
    case None => None
    case Some(i) => Some(KeyParts(key[..i], ParseInt(key[i + 1..])))
  }

  /** Every cache key can be read back into the query and limit it was built from. */
  lemma CacheKeyRoundTrip(searchQuery: string, limit: int)
    ensures ParseKey(CacheKey(searchQuery, limit)) == Some(KeyParts(searchQuery, limit))
  {
    var key := CacheKey(searchQuery, limit);
    var digits := IntToString(limit);
    var n := |searchQuery|;
    assert key[n] == ':';
    forall k | n < k < |key| ensures key[k] != ':' {
      assert key[k] == digits[k - n - 1];
    }
    var i := LastColon(key);
    assert i == Some(n);
    assert key[..n] == searchQuery;
    assert key[n + 1..] == digits;
    ParseIntRoundTrip(limit);
  }

  /** Two cache keys coincide exactly when both the query and the limit do: a
      cached answer for one query is never served for another, and one query
      under two limits occupies two entries. */
  lemma CacheKeyInjective(q1: string, l1: int, q2: string, l2: int)
    ensures CacheKey(q1, l1) == CacheKey(q2, l2) <==> q1 == q2 && l1 == l2
  {
    CacheKeyRoundTrip(q1, l1);
    CacheKeyRoundTrip(q2, l2);
  }

  /** The message a failed lookup leaves in `error`. */
  function ErrorMessage(t: Thrown): (m: string)
    ensures t.ErrorObject? ==> m == t.message
    ensures t.OtherValue? ==> m == "Unknown error occurred"
  {
    match t
    case ErrorObject(msg) => msg
    case OtherValue => "Unknown error occurred"
  }

  /** The lookup collaborator reduced to its outcome: a non-ok status becomes the
      error "API error: <status>", a rejected request or an unparsable body
      becomes its error's message, and a parsed body (list or `null`) is a
      success. */
  function FetchFromApi(r: Settled): (o: Outcome)
    ensures o.Ok? <==> r.Resolved? && r.ok && r.body.Parsed?
    ensures o.Ok? ==> o.body == r.body.value
    ensures r.Resolved? && !r.ok ==> o == Fail("API error: " + IntToString(r.status))
    ensures r.Rejected? ==> o == Fail(ErrorMessage(r.reason))
    ensures r.Resolved? && r.ok && r.body.Malformed? ==> o == Fail(r.body.parseError)
  {
    match r
    case Rejected(reason) => Fail(ErrorMessage(reason))
    case Resolved(ok, status, body) =>
      if !ok then Fail(ErrorMessage(ErrorObject("API error: " + IntToString(status))))
      else match body
        case Parsed(v) => Ok(v)
        case Malformed(e) => Fail(ErrorMessage(ErrorObject(e)))
  }

  /** The cache holds an entry for `key` that is younger than the time-to-live at `now`. */
  predicate FreshHit(c: Config, cache: map<string, CacheEntry>, key: string, now: int) {
    key in cache && now - cache[key].timestamp < c.cacheTTL
  }

  /** `setQuery`: records the raw input text and nothing else. */
  function SetQuery(s: State, text: string): (t: State)
    ensures t.query == text
    ensures t.(query := s.query) == s
  {
    s.(query := text)
  }

  /** The synchronous part of `fetchResults(searchQuery)` at clock reading `now`.
      A blank query clears results and error. A fresh cache entry is served. In
      every other case a stale entry for the key is evicted, the loading flag is
      raised, the error cleared, and a lookup is dispatched. */
  function FetchResults(c: Config, s: State, searchQuery: string, now: int): (r: Started)
    ensures r.request.None? <==> IsBlank(searchQuery) || FreshHit(c, s.cache, CacheKey(searchQuery, c.limit), now)
    ensures IsBlank(searchQuery) ==> r.state == s.(results := [], error := None)
    ensures !IsBlank(searchQuery) && FreshHit(c, s.cache, CacheKey(searchQuery, c.limit), now) ==>
      r.state == s.(results := s.cache[CacheKey(searchQuery, c.limit)].data, error := None)
    ensures r.request.Some? ==>
      && r.request.value == Request(searchQuery, CacheKey(searchQuery, c.limit), now)
      && r.state == s.(isLoading := true, error := None, cache := s.cache - {r.request.value.key})
  {
    TrimEmptyIffBlank(searchQuery);
    if Trim(searchQuery) == [] then
      Started(s.(results := [], error := None), None)
    else
      var key := CacheKey(searchQuery, c.limit);
      if key in s.cache && now - s.cache[key].timestamp < c.cacheTTL then
        Started(s.(results := s.cache[key].data, error := None), None)
      else
        // `Map.delete` of an absent key changes nothing, so removing the key
        // unconditionally is the hook's "evict if present".
        Started(s.(isLoading := true, error := None, cache := s.cache - {key}), Some(Request(searchQuery, key, now)))
  }

  /** The continuation of `fetchResults` once its lookup settles. Success stores
      the body (`null` as the empty list) under the request's key, stamped with the
      request's start time, and shows it; failure shows the error and no results
      and leaves the cache alone. Either way loading ends. The write happens
      whatever the controller did in the meantime. */
  function Complete(s: State, req: Request, o: Outcome): (t: State)
    ensures !t.isLoading
    ensures t.query == s.query && t.pending == s.pending
    ensures o.Ok? ==>
      && t.results == o.body.GetOr([])
      && t.cache == s.cache[req.key := CacheEntry(t.results, req.startedAt)]
      && t.error == s.error
    ensures o.Fail? ==> t.results == [] && t.error == Some(o.message) && t.cache == s.cache
  {
    match o
    case Ok(body) =>
      var data := body.GetOr([]);
      s.(cache := s.cache[req.key := CacheEntry(data, req.startedAt)], results := data, isLoading := false)
    case Fail(message) =>
      s.(error := Some(message), results := [], isLoading := false)
  }

  /** `fetchResults` awaited to the end, with `o` as the outcome of its lookup if
      it dispatches one. */
  function FetchAndAwait(c: Config, s: State, searchQuery: string, now: int, o: Outcome): State {
    var st := FetchResults(c, s, searchQuery, now);
    if st.request.Some? then Complete(st.state, st.request.value, o) else st.state
  }

  /** The earliest time a timer set at `now` may fire: JavaScript runs a negative
      delay as zero. */
  function DueTime(c: Config, now: int): (due: int)
    ensures c.debounceMs < 0 ==> due == now
    ensures c.debounceMs >= 0 ==> due == now + c.debounceMs
  {
    if c.debounceMs < 0 then now else now + c.debounceMs
  }

  /** `debouncedFetch(searchQuery)` at `now`: the pending timer, if any, is
      cancelled and replaced by one for `searchQuery`. */
  function DebouncedFetch(c: Config, s: State, searchQuery: string, now: int): (t: State)
    ensures t.pending == Some(Timer(searchQuery, DueTime(c, now)))
    ensures t.(pending := s.pending) == s
  {
    s.(pending := Some(Timer(searchQuery, DueTime(c, now))))
  }

  /** The timer queue running at `now`: a pending timer that is due fires once,
      leaving the slot empty, and invokes `fetchResults` with its text. */
  function Fire(c: Config, s: State, now: int): (r: Fired)
    ensures r.invoked.Some? <==> s.pending.Some? && s.pending.value.due <= now
    ensures r.invoked.None? ==> r == Fired(s, None, None)
    ensures r.invoked.Some? ==>
      && r.invoked.value == s.pending.value.searchQuery
      && r.state.pending.None?
      && Started(r.state, r.request) == FetchResults(c, s.(pending := None), r.invoked.value, now)
  {
    match s.pending
    case Some(timer) =>
      if timer.due <= now then
        var st := FetchResults(c, s.(pending := None), timer.searchQuery, now);
        Fired(st.state, Some(timer.searchQuery), st.request)
      else
        Fired(s, None, None)
    case None => Fired(s, None, None)
  }
}

=== FILE: autocomplete_lemmas.dfy ===
/** Properties of the query lifecycle controller that relate several calls:
    what a blank query does whatever the state, when the cache answers and when
    it is refreshed, how entries for different keys stay apart, what a lookup
    leaves behind, and how the debounce slot coalesces calls. */
module AutocompleteLemmas {
  import opened Wrappers
  import opened JsText
  import opened Autocomplete

  /** With no options given the limit is 8, the debounce delay 200 ms and the
      time-to-live 30000 ms, and the hook exposes the time-to-live it was
      configured with. */
  lemma DefaultsAndExposedTTL(o: Options, s: State)
    ensures Configure(Options(None, None, None)) == Config(8, 200, 30000)
    ensures Expose(Configure(o), s).cacheTTL == (if o.cacheTTL.Some? then o.cacheTTL.value else 30000)
  {
  }

  /** A blank query, in any state, empties the results and clears the error,
      dispatches no lookup, and leaves the loading flag, the cache, the query
      text and the debounce slot as they were. */
  lemma BlankQueryClears(c: Config, s: State, searchQuery: string, now: int)
    requires IsBlank(searchQuery)
    ensures FetchResults(c, s, searchQuery, now).request.None?
    ensures var t := FetchResults(c, s, searchQuery, now).state;
      && t.results == [] && t.error == None
      && t.isLoading == s.isLoading && t.cache == s.cache
      && t.query == s.query && t.pending == s.pending
  {
  }

  /** A lookup that succeeds leaves its answer (the empty list for a `null`
      body) both on screen and in the cache under `"<query>:<limit>"`, stamped
      with the clock reading taken before the lookup; the error is clear and
      loading has ended. */
  lemma SuccessfulLookup(c: Config, s: State, searchQuery: string, now: int, body: Option<seq<Word>>)
    requires FetchResults(c, s, searchQuery, now).request.Some?
    ensures var t := FetchAndAwait(c, s, searchQuery, now, Ok(body));
      var data := if body.Some? then body.value else [];
      && t.results == data
      && t.error == None
      && !t.isLoading
      && t.cache == s.cache[CacheKey(searchQuery, c.limit) := CacheEntry(data, now)]
  {
  }

  /** A lookup that fails shows its message and no results and ends loading;
      the cache is what the start step left, so nothing is added for the key. */
  lemma FailedLookup(c: Config, s: State, searchQuery: string, now: int, message: string)
    requires FetchResults(c, s, searchQuery, now).request.Some?
    ensures var t := FetchAndAwait(c, s, searchQuery, now, Fail(message));
      && t.results == [] && t.error == Some(message) && !t.isLoading
      && t.cache == s.cache - {CacheKey(searchQuery, c.limit)}
      && CacheKey(searchQuery, c.limit) !in t.cache
  {
  }

  /** A non-ok HTTP status reaches the controller as the error
      "API error: <status>", with no results. */
  lemma NonOkStatusIsAnError(c: Config, s: State, searchQuery: string, now: int, status: int, body: Body)
    requires FetchResults(c, s, searchQuery, now).request.Some?
    ensures var t := FetchAndAwait(c, s, searchQuery, now, FetchFromApi(Resolved(false, status, body)));
      && t.error == Some("API error: " + IntToString(status))
      && t.results == []
      && !t.isLoading
  {
  }

  /** After a lookup for a query succeeds, asking again for the same query with
      the same limit before the time-to-live has passed is answered from the
      cache: no second lookup, the same results, no error, and the loading
      flag and cache untouched. */
  lemma RepeatWithinTTLServedFromCache(
    c: Config, s: State, searchQuery: string, t0: int, body: Option<seq<Word>>, t1: int)
    requires FetchResults(c, s, searchQuery, t0).request.Some?
    requires t1 - t0 < c.cacheTTL
    ensures var s1 := FetchAndAwait(c, s, searchQuery, t0, Ok(body));
      var again := FetchResults(c, s1, searchQuery, t1);
      && again.request.None?
      && again.state.results == s1.results
      && again.state.error == None
      && again.state.isLoading == s1.isLoading
      && again.state.cache == s1.cache
  {
  }

  /** Once the time-to-live has passed since a lookup, asking again for the same
      key dispatches a new lookup and the stale entry is gone from the cache until
      it settles; when that lookup succeeds the key holds the new data and the new
      time stamp. */
  lemma ExpiredEntryRefetched(
    c: Config, s: State, searchQuery: string, t0: int, body: Option<seq<Word>>,
    t1: int, body1: Option<seq<Word>>)
    requires FetchResults(c, s, searchQuery, t0).request.Some?
    requires t1 - t0 >= c.cacheTTL
    ensures var s1 := FetchAndAwait(c, s, searchQuery, t0, Ok(body));
      var again := FetchResults(c, s1, searchQuery, t1);
      var key := CacheKey(searchQuery, c.limit);
      && again.request == Some(Request(searchQuery, key, t1))
      && key !in again.state.cache
      && again.state.isLoading
      && FetchAndAwait(c, s1, searchQuery, t1, Ok(body1)).cache[key]
         == CacheEntry(if body1.Some? then body1.value else [], t1)
  {
  }

  /** Storing the answer to one lookup leaves every other key's entry as it was. */
  lemma CompletionTouchesOnlyItsKey(s: State, req: Request, o: Outcome, other: string)
    requires other != req.key
    ensures other in Complete(s, req, o).cache <==> other in s.cache
    ensures other in s.cache ==> Complete(s, req, o).cache[other] == s.cache[other]
  {
  }

  /** Entries are independent across queries and across limits: a lookup for one
      query under one limit never alters the entry of a different query, nor the
      entry of the same query under a different limit. */
  lemma LookupsDoNotShareEntries(
    c: Config, s: State, q1: string, now: int, o: Outcome, q2: string, limit2: int)
    requires FetchResults(c, s, q1, now).request.Some?
    requires q1 != q2 || c.limit != limit2
    ensures var key2 := CacheKey(q2, limit2);
      var t := FetchAndAwait(c, s, q1, now, o);
      && (key2 in t.cache <==> key2 in s.cache)
      && (key2 in s.cache ==> t.cache[key2] == s.cache[key2])
  {
    CacheKeyInjective(q1, c.limit, q2, limit2);
  }

  /** Worked example: with limit 5, a lookup for "test" answered by two words
      shows both, clears error and loading, and caches them under "test:5". */
  lemma LookupScenario(now: int)
    ensures var c := Configure(Options(Some(5), None, None));
      var words := [Word(Some("test"), Some(10)), Word(Some("testing"), Some(5))];
      var t := FetchAndAwait(c, Initial, "test", now, FetchFromApi(Resolved(true, 200, Parsed(Some(words)))));
      && t.results == words && !t.isLoading && t.error == None
      && "test:5" in t.cache && t.cache["test:5"].data == words
  {
    var c := Configure(Options(Some(5), None, None));
    assert CacheKey("test", 5) == "test:5";
    assert !IsBlank("test") by { assert !IsWhitespace("test"[0]); }
  }

  /** The completion step writes unconditionally: a lookup dispatched for one
      query and settling after a blank query has cleared the list puts its
      answer back on screen. The controller has no guard against such late
      answers. */
  lemma LateAnswerOverwritesClear(
    c: Config, s: State, searchQuery: string, now: int, blank: string, later: int, words: seq<Word>)
    requires FetchResults(c, s, searchQuery, now).request.Some?
    requires IsBlank(blank)
    ensures var st := FetchResults(c, s, searchQuery, now);
      var cleared := FetchResults(c, st.state, blank, later).state;
      && cleared.results == []
      && Complete(cleared, st.request.value, Ok(Some(words))).results == words
  {
  }

  /** A sequence of `debouncedFetch` calls, each with its own text and clock reading. */
  datatype Call = Call(searchQuery: string, at: int)

  function DebounceAll(c: Config, s: State, calls: seq<Call>): State
    decreases |calls|
  {
    if |calls| == 0 then s
    else DebounceAll(c, DebouncedFetch(c, s, calls[0].searchQuery, calls[0].at), calls[1..])
  }

  /** However many `debouncedFetch` calls are made, one timer is pending
      afterwards, carrying the text and due time of the last call, and nothing
      else in the state has changed. */
  lemma {:induction false} DebounceKeepsOnlyLast(c: Config, s: State, calls: seq<Call>)
    requires |calls| > 0
    ensures var t := DebounceAll(c, s, calls);
      var last := calls[|calls| - 1];
      && t.pending == Some(Timer(last.searchQuery, DueTime(c, last.at)))
      && t.(pending := s.pending) == s
    decreases |calls|
  {
    if |calls| > 1 {
      DebounceKeepsOnlyLast(c, DebouncedFetch(c, s, calls[0].searchQuery, calls[0].at), calls[1..]);
    }
  }

  /** N calls followed by the timer queue running: before the last call's delay
      has elapsed nothing fires; once it has, `fetchResults` is invoked exactly
      once, with the last call's text, and a further run of the timer queue
      invokes nothing. */
  lemma DebounceFiresOnceWithLastText(c: Config, s: State, calls: seq<Call>, now: int, later: int)
    requires |calls| > 0
    ensures var t := DebounceAll(c, s, calls);
      var last := calls[|calls| - 1];
      var f := Fire(c, t, now);
      && (f.invoked.Some? <==> now >= DueTime(c, last.at))
      && (f.invoked.Some? ==> f.invoked.value == last.searchQuery)
      && (f.invoked.Some? ==> Fire(c, f.state, later).invoked.None?)
  {
    DebounceKeepsOnlyLast(c, s, calls);
  }
}

=== FILE: controller_runs.dfy ===
/** Runs of the query lifecycle controller: typing, direct and debounced fetches,
    timer runs, and lookups settling in any order. The lookups in flight are kept
    beside the state so that any of them can settle next; the hook gives no
    ordering between overlapping lookups. */
module ControllerRuns {
  import opened Wrappers
  import opened JsText
  import opened Autocomplete

  datatype Event =
    | Typed(text: string)
    | FetchNow(text: string, now: int)
    | Debounce(text: string, now: int)
    | TimerRun(now: int)
    | Settle(index: nat, outcome: Outcome)

  /** The controller's state and the lookups dispatched but not yet settled. */
  datatype Controller = Controller(state: State, inFlight: seq<Request>)

  /** The lookups a step dispatched, as a list. */
  function Dispatched(r: Option<Request>): (d: seq<Request>)
    ensures r.None? <==> d == []
    ensures r.Some? ==> d == [r.value]
  {
    if r.Some? then [r.value] else []
  }

  /** `s` without its `i`-th element. */
  function RemoveAt(s: seq<Request>, i: nat): (r: seq<Request>)
    requires i < |s|
    ensures |r| == |s| - 1
    ensures forall j | 0 <= j < |r| :: r[j] == (if j < i then s[j] else s[j + 1])
  {
    s[..i] + s[i + 1..]
  }

  function Step(c: Config, ctl: Controller, e: Event): Controller {
    match e
    case Typed(text) => ctl.(state := SetQuery(ctl.state, text))
    case FetchNow(text, now) =>
      var st := FetchResults(c, ctl.state, text, now);
      Controller(st.state, ctl.inFlight + Dispatched(st.request))
    case Debounce(text, now) => ctl.(state := DebouncedFetch(c, ctl.state, text, now))
    case TimerRun(now) =>
      var f := Fire(c, ctl.state, now);
      Controller(f.state, ctl.inFlight + Dispatched(f.request))
    case Settle(i, o) =>
      if i < |ctl.inFlight| then
        Controller(Complete(ctl.state, ctl.inFlight[i], o), RemoveAt(ctl.inFlight, i))
      else
        ctl
  }

  function Run(c: Config, ctl: Controller, events: seq<Event>): Controller
    decreases |events|
  {
    if |events| == 0 then ctl else Run(c, Step(c, ctl, events[0]), events[1..])
  }

  /** A dispatched lookup is for a non-blank query, under the key that query
      has with the configured limit. */
  predicate ValidRequest(c: Config, r: Request) {
    r.key == CacheKey(r.searchQuery, c.limit) && !IsBlank(r.searchQuery)
  }

  /** A cache key reads back as a non-blank query under the configured limit. */
  predicate KeyUnderLimit(c: Config, key: string) {
    match ParseKey(key)
    case None => false
    case Some(p) => p.limit == c.limit && !IsBlank(p.searchQuery) && key == CacheKey(p.searchQuery, c.limit)
  }

  predicate RequestsValid(c: Config, rs: seq<Request>) {
    forall i | 0 <= i < |rs| :: ValidRequest(c, rs[i])
  }

  predicate KeysUnderLimit(c: Config, cache: map<string, CacheEntry>) {
    forall key | key in cache :: KeyUnderLimit(c, key)
  }

  /** What every reachable controller satisfies: loading is only shown while a
      lookup is in flight, every lookup in flight is well formed, and every cache
      entry belongs to a non-blank query under the configured limit. */
  predicate Valid(c: Config, ctl: Controller) {
    && (ctl.state.isLoading ==> |ctl.inFlight| > 0)
    && RequestsValid(c, ctl.inFlight)
    && KeysUnderLimit(c, ctl.state.cache)
  }

  lemma FewerKeysUnderLimit(c: Config, m: map<string, CacheEntry>, m': map<string, CacheEntry>)
    requires KeysUnderLimit(c, m) && m'.Keys <= m.Keys
    ensures KeysUnderLimit(c, m')
  {
    forall key | key in m' ensures KeyUnderLimit(c, key) {
      assert key in m;
    }
  }

  lemma AppendValidRequests(c: Config, rs: seq<Request>, more: seq<Request>)
    requires RequestsValid(c, rs) && RequestsValid(c, more)
    ensures RequestsValid(c, rs + more)
  {
    forall i | 0 <= i < |rs + more| ensures ValidRequest(c, (rs + more)[i]) {
      if i >= |rs| {
        assert (rs + more)[i] == more[i - |rs|];
      }
    }
  }

  /** Every lookup a fetch dispatches is well formed. */
  lemma FetchDispatchesValid(c: Config, s: State, text: string, now: int)
    ensures var st := FetchResults(c, s, text, now);
      st.request.Some? ==> ValidRequest(c, st.request.value)
  {
  }

  /** Storing the answer to a well-formed lookup keeps every key under the limit. */
  lemma CompleteKeepsKeys(c: Config, s: State, req: Request, o: Outcome)
    requires ValidRequest(c, req)
    requires KeysUnderLimit(c, s.cache)
    ensures KeysUnderLimit(c, Complete(s, req, o).cache)
  {
    CacheKeyRoundTrip(req.searchQuery, c.limit);
    assert KeyUnderLimit(c, req.key);
  }

  /** A fetch started directly or by the timer keeps the invariant: the cache
      only loses entries, and a dispatched lookup joins the ones in flight. */
  lemma StartKeepsValid(c: Config, ctl: Controller, s: State, text: string, now: int)
    requires Valid(c, ctl)
    requires s.cache == ctl.state.cache && s.isLoading == ctl.state.isLoading
    ensures FetchResults(c, s, text, now).state.cache.Keys <= s.cache.Keys
    ensures var st := FetchResults(c, s, text, now);
      Valid(c, Controller(st.state, ctl.inFlight + Dispatched(st.request)))
  {
    var st := FetchResults(c, s, text, now);
    FetchDispatchesValid(c, s, text, now);
    FewerKeysUnderLimit(c, s.cache, st.state.cache);
    AppendValidRequests(c, ctl.inFlight, Dispatched(st.request));
  }

  /** Settling the `i`-th lookup in flight keeps the invariant. */
  lemma SettleKeepsValid(c: Config, ctl: Controller, i: nat, o: Outcome)
    requires Valid(c, ctl)
    requires i < |ctl.inFlight|
    ensures Valid(c, Controller(Complete(ctl.state, ctl.inFlight[i], o), RemoveAt(ctl.inFlight, i)))
  {
    CompleteKeepsKeys(c, ctl.state, ctl.inFlight[i], o);
    var rest := RemoveAt(ctl.inFlight, i);
    forall j | 0 <= j < |rest| ensures ValidRequest(c, rest[j]) {
      assert rest[j] == ctl.inFlight[if j < i then j else j + 1];
    }
  }

  lemma StepKeepsValid(c: Config, ctl: Controller, e: Event)
    requires Valid(c, ctl)
    ensures Valid(c, Step(c, ctl, e))
  {
    match e
    case Typed(_) =>
    case FetchNow(text, now) =>
      StartKeepsValid(c, ctl, ctl.state, text, now);
    case Debounce(_, _) =>
    case TimerRun(now) =>
      var f := Fire(c, ctl.state, now);
      if f.invoked.Some? {
        StartKeepsValid(c, ctl, ctl.state.(pending := None), f.invoked.value, now);
      }
    case Settle(i, o) =>
      if i < |ctl.inFlight| {
        SettleKeepsValid(c, ctl, i, o);
      }
  }

  /** The invariant holds along every run from a valid controller. */
  lemma {:induction false} RunKeepsValid(c: Config, ctl: Controller, events: seq<Event>)
    requires Valid(c, ctl)
    ensures Valid(c, Run(c, ctl, events))
    decreases |events|
  {
    if |events| > 0 {
      StepKeepsValid(c, ctl, events[0]);
      RunKeepsValid(c, Step(c, ctl, events[0]), events[1..]);
    }
  }

  /** In every state reachable from a freshly mounted controller, no cache entry
      belongs to a blank query or to another limit, and the loading flag is down
      whenever nothing is in flight. */
  lemma ReachableFromInitial(c: Config, events: seq<Event>, key: string)
    ensures var ctl := Run(c, Controller(Initial, []), events);
      && (key in ctl.state.cache ==>
            ParseKey(key).Some? && ParseKey(key).value.limit == c.limit
            && !IsBlank(ParseKey(key).value.searchQuery))
      && (|ctl.inFlight| == 0 ==> !ctl.state.isLoading)
  {
    RunKeepsValid(c, Controller(Initial, []), events);
  }
}

=== FILE: js_text.dfy ===
/** The two pieces of ECMAScript string behaviour the query controller relies on:
    which characters `String.prototype.trim` strips, and how an integral number is
    rendered inside a template literal. Both are stated here together with an
    independent characterisation (blankness, and a decimal parser) that they are
    proved against. */
module JsText {

  /** ECMAScript WhiteSpace and LineTerminator code points: the set `trim` strips. */
  predicate IsWhitespace(c: char) {
    || c == '\t' || c == '\n' || c == '\U{B}' || c == '\U{C}' || c == '\r' || c == ' '
    || c == '\U{A0}' || c == '\U{1680}' || ('\U{2000}' <= c <= '\U{200A}')
    || c == '\U{2028}' || c == '\U{2029}' || c == '\U{202F}' || c == '\U{205F}'
    || c == '\U{3000}' || c == '\U{FEFF}'
  }

  /** Every character of `s` is whitespace (the empty string included). */
  predicate IsBlank(s: string) {
    forall i | 0 <= i < |s| :: IsWhitespace(s[i])
  }

  /** `s` with its leading whitespace removed. */
  function TrimStart(s: string): (r: string)
    ensures |r| <= |s| && r == s[|s| - |r|..]
    ensures IsBlank(s[..|s| - |r|])
    ensures r == [] || !IsWhitespace(r[0])
  {
    if |s| > 0 && IsWhitespace(s[0]) then
      var r := TrimStart(s[1..]);
      assert s[..|s| - |r|] == [s[0]] + s[1..][..|s| - 1 - |r|];
      r
    else
      s
  }

  /** `s` with its trailing whitespace removed. */
  function TrimEnd(s: string): (r: string)
    ensures |r| <= |s| && r == s[..|r|]
    ensures IsBlank(s[|r|..])
    ensures r == [] || !IsWhitespace(r[|r| - 1])
  {
    if |s| > 0 && IsWhitespace(s[|s| - 1]) then
      var r := TrimEnd(s[..|s| - 1]);
      assert s[|r|..] == s[..|s| - 1][|r|..] + [s[|s| - 1]];
      r
    else
      s
  }

  /** `String.prototype.trim`. */
  function Trim(s: string): string {
    TrimEnd(TrimStart(s))
  }

  /** `!s.trim()` holds exactly for the blank strings. */
  lemma TrimEmptyIffBlank(s: string)
    ensures Trim(s) == [] <==> IsBlank(s)
  {
  }

  predicate IsDigit(c: char) {
    '0' <= c <= '9'
  }

  /** The decimal digit character for `d`. */
  function DigitChar(d: nat): (c: char)
    requires d < 10
    ensures IsDigit(c)
  {
    "0123456789"[d]
  }

  /** The value of a decimal digit character (0 for any other character). */
  function DigitValue(c: char): (d: nat)
    ensures d < 10
  {
    if IsDigit(c) then (c as int) - ('0' as int) else 0
  }

  lemma DigitValueOfDigitChar(d: nat)
    requires d < 10
    ensures DigitValue(DigitChar(d)) == d
  {
  }

  /** Decimal rendering of a natural number: no sign, no leading zeros. */
  function NatToString(n: nat): (r: string)
    ensures |r| >= 1
    ensures forall i | 0 <= i < |r| :: IsDigit(r[i])
    ensures |r| > 1 ==> r[0] != '0'
    decreases n
  {
    if n < 10 then [DigitChar(n)] else NatToString(n / 10) + [DigitChar(n % 10)]
  }

  /** Reads a string of decimal digits most-significant first. */
  function ParseNat(s: string): nat
    decreases |s|
  {
    if |s| == 0 then 0 else 10 * ParseNat(s[..|s| - 1]) + DigitValue(s[|s| - 1])
  }

  /** How an integral JavaScript number is rendered by `${n}`: an optional minus
      sign followed by the decimal digits of its magnitude. */
  function IntToString(i: int): (r: string)
    ensures |r| >= 1
    ensures r[0] == '-' <==> i < 0
    ensures forall k | 0 < k < |r| :: IsDigit(r[k])
    ensures i >= 0 ==> IsDigit(r[0])
    ensures i < 0 ==> |r| >= 2
    ensures var d := if i < 0 then r[1..] else r; |d| > 1 ==> d[0] != '0'
  {
    if i < 0 then "-" + NatToString(-i) else NatToString(i)
  }

  /** Reads what `IntToString` writes. */
  function ParseInt(s: string): int {
    if |s| > 0 && s[0] == '-' then 0 - ParseNat(s[1..]) else ParseNat(s)
  }

  lemma {:induction false} ParseNatRoundTrip(n: nat)
    ensures ParseNat(NatToString(n)) == n
    decreases n
  {
    if n >= 10 {
      var r := NatToString(n);
      assert r[..|r| - 1] == NatToString(n / 10);
      ParseNatRoundTrip(n / 10);
      DigitValueOfDigitChar(n % 10);
    } else {
      DigitValueOfDigitChar(n);
    }
  }

  lemma ParseIntRoundTrip(i: int)
    ensures ParseInt(IntToString(i)) == i
  {
    if i < 0 {
      assert IntToString(i)[1..] == NatToString(-i);
      ParseNatRoundTrip(-i);
    } else {
      ParseNatRoundTrip(i);
    }
  }

  /** Two integers render the same exactly when they are equal. */
  lemma IntToStringInjective(a: int, b: int)
    ensures IntToString(a) == IntToString(b) <==> a == b
  {
    ParseIntRoundTrip(a);
    ParseIntRoundTrip(b);
  }
}

=== FILE: navigation.dfy ===
/** The selection navigation state machine of `useAutocompleteNavigation`: a
    highlighted index (-1 for none) and an open flag over the current result
    list, driven by key presses, by the result list being replaced, by pointer
    presses anywhere in the document, and by two unchecked setters. */
module Navigation {
  import opened Wrappers
  import Autocomplete

  datatype Nav = Nav(selectedIndex: int, isOpen: bool)

  /** Nothing highlighted, dropdown closed. */
  const Initial := Nav(-1, false)

  /** The keys the handler distinguishes; `OtherKey` stands for every other `e.key`. */
  datatype Key = ArrowDown | ArrowUp | Enter | Escape | OtherKey

  /** The case of `switch (e.key)` that a key name falls into. */
  function KeyOf(name: string): (k: Key)
    ensures k.ArrowDown? <==> name == "ArrowDown"
    ensures k.ArrowUp? <==> name == "ArrowUp"
    ensures k.Enter? <==> name == "Enter"
    ensures k.Escape? <==> name == "Escape"
  {
    if name == "ArrowDown" then ArrowDown
    else if name == "ArrowUp" then ArrowUp
    else if name == "Enter" then Enter
    else if name == "Escape" then Escape
    else OtherKey
  }

  /** What `onSelect` receives: `results[i]`, which JavaScript evaluates to
      `undefined` when `i` is past the end of the list. */
  datatype Selected = Item(word: Autocomplete.Word) | Undefined

  /** One key press: the new state, whether `preventDefault` was called, and the
      argument `onSelect` was called with, if it was called. */
  datatype KeyStep = KeyStep(nav: Nav, preventedDefault: bool, selected: Option<Selected>)

  /** JavaScript's `results[i]` for a non-negative index. */
  function At(results: seq<Autocomplete.Word>, i: nat): (r: Selected)
    ensures r.Item? <==> i < |results|
    ensures r.Item? ==> r.word == results[i]
  {
    if i < |results| then Item(results[i]) else Undefined
  }

  /** The highlighted index lies on the list, or is -1. */
  predicate InRange(nav: Nav, results: seq<Autocomplete.Word>) {
    -1 <= nav.selectedIndex < |results|
  }

  /** `handleKeyDown(e, onSelect)` with `results` as the current list. */
  function HandleKey(nav: Nav, results: seq<Autocomplete.Word>, key: Key): (r: KeyStep)
    ensures !nav.isOpen || |results| == 0 ==> r == KeyStep(nav, false, None)
    ensures r.preventedDefault <==>
      nav.isOpen && |results| > 0 && (key.ArrowDown? || key.ArrowUp? || key.Enter?)
    ensures r.selected.Some? <==>
      nav.isOpen && |results| > 0 && key.Enter? && nav.selectedIndex >= 0
    ensures r.nav.isOpen <==> nav.isOpen && !(|results| > 0 && key.Escape?)
    ensures key.Enter? || key.OtherKey? ==> r.nav == nav
    ensures nav.isOpen && |results| > 0 && key.ArrowDown? ==>
      r.nav.selectedIndex == (if nav.selectedIndex < |results| - 1 then nav.selectedIndex + 1 else nav.selectedIndex)
    ensures nav.isOpen && |results| > 0 && key.Enter? && nav.selectedIndex >= 0 ==>
      r.selected == Some(At(results, nav.selectedIndex))
  {
    if !nav.isOpen || |results| == 0 then KeyStep(nav, false, None)
    else
      match key
      case ArrowDown =>
        var prev := nav.selectedIndex;
        KeyStep(nav.(selectedIndex := if prev < |results| - 1 then prev + 1 else prev), true, None)
      case ArrowUp =>
        var prev := nav.selectedIndex;
        KeyStep(nav.(selectedIndex := if prev > 0 then prev - 1 else -1), true, None)
      case Enter =>
        KeyStep(nav, true, if nav.selectedIndex >= 0 then Some(At(results, nav.selectedIndex)) else None)
      case Escape =>
        KeyStep(Nav(-1, false), false, None)
      case OtherKey =>
        KeyStep(nav, false, None)
  }

  /** The effect that runs whenever the results array is replaced (by reference):
      the highlight is dropped, whatever the new list is. */
  function ResultsReplaced(nav: Nav): (r: Nav)
    ensures r.selectedIndex == -1
    ensures r.isOpen == nav.isOpen
    ensures forall results: seq<Autocomplete.Word> :: InRange(r, results)
  {
    nav.(selectedIndex := -1)
  }

  /** The document-level `mousedown` listener. `attached` says whether the
      container element is mounted, `inside` whether the press landed in it. */
  function PointerDown(nav: Nav, attached: bool, inside: bool): (r: Nav)
    ensures r.selectedIndex == nav.selectedIndex
    ensures r.isOpen <==> nav.isOpen && !(attached && !inside)
  {
    if attached && !inside then nav.(isOpen := false) else nav
  }

  function Min(a: int, b: int): int { if a <= b then a else b }
  function Max(a: int, b: int): int { if a >= b then a else b }

  /** While the dropdown is open over a non-empty list and the highlight is not
      above it, ArrowDown moves it one step towards the last item and stops there. */
  lemma ArrowDownClamps(nav: Nav, results: seq<Autocomplete.Word>)
    requires nav.isOpen && |results| > 0 && nav.selectedIndex < |results|
    ensures var r := HandleKey(nav, results, ArrowDown);
      && r.nav.selectedIndex == Min(nav.selectedIndex + 1, |results| - 1)
      && r.nav.isOpen && r.preventedDefault && r.selected.None?
      && (InRange(nav, results) ==> InRange(r.nav, results))
  {
  }

  /** While the dropdown is open over a non-empty list, ArrowUp moves the
      highlight one step back and stops at -1 (from any index, in range or not). */
  lemma ArrowUpClamps(nav: Nav, results: seq<Autocomplete.Word>)
    requires nav.isOpen && |results| > 0
    ensures var r := HandleKey(nav, results, ArrowUp);
      && r.nav.selectedIndex == Max(nav.selectedIndex - 1, -1)
      && r.nav.isOpen && r.preventedDefault && r.selected.None?
      && (InRange(nav, results) ==> InRange(r.nav, results))
  {
  }

  /** ArrowUp undoes ArrowDown whenever ArrowDown moved. */
  lemma ArrowUpUndoesArrowDown(nav: Nav, results: seq<Autocomplete.Word>)
    requires nav.isOpen && -1 <= nav.selectedIndex < |results| - 1
    ensures HandleKey(HandleKey(nav, results, ArrowDown).nav, results, ArrowUp).nav == nav
  {
  }

  /** ArrowDown undoes ArrowUp whenever ArrowUp moved. */
  lemma ArrowDownUndoesArrowUp(nav: Nav, results: seq<Autocomplete.Word>)
    requires nav.isOpen && 0 <= nav.selectedIndex < |results|
    ensures HandleKey(HandleKey(nav, results, ArrowUp).nav, results, ArrowDown).nav == nav
  {
  }

  /** The state after pressing `key` `k` times. */
  function Press(nav: Nav, results: seq<Autocomplete.Word>, key: Key, k: nat): Nav
    decreases k
  {
    if k == 0 then nav else Press(HandleKey(nav, results, key).nav, results, key, k - 1)
  }

  /** `k` presses of ArrowDown from an in-range highlight land on
      `min(i + k, n - 1)`. */
  lemma {:induction false} ArrowDownPresses(nav: Nav, results: seq<Autocomplete.Word>, k: nat)
    requires nav.isOpen && |results| > 0 && InRange(nav, results)
    ensures Press(nav, results, ArrowDown, k) == nav.(selectedIndex := Min(nav.selectedIndex + k, |results| - 1))
    decreases k
  {
    if k > 0 {
      var next := HandleKey(nav, results, ArrowDown).nav;
      ArrowDownClamps(nav, results);
      ArrowDownPresses(next, results, k - 1);
    }
  }

  /** `k` presses of ArrowUp from an in-range highlight land on `max(i - k, -1)`. */
  lemma {:induction false} ArrowUpPresses(nav: Nav, results: seq<Autocomplete.Word>, k: nat)
    requires nav.isOpen && |results| > 0 && InRange(nav, results)
    ensures Press(nav, results, ArrowUp, k) == nav.(selectedIndex := Max(nav.selectedIndex - k, -1))
    decreases k
  {
    if k > 0 {
      var next := HandleKey(nav, results, ArrowUp).nav;
      ArrowUpClamps(nav, results);
      ArrowUpPresses(next, results, k - 1);
    }
  }

  /** Enter always suppresses the default action and never moves the state; it
      calls `onSelect` exactly when something is highlighted, and with an
      in-range highlight the argument is the highlighted result itself. */
  lemma EnterSelectsHighlighted(nav: Nav, results: seq<Autocomplete.Word>)
    requires nav.isOpen && |results| > 0 && InRange(nav, results)
    ensures var r := HandleKey(nav, results, Enter);
      && r.preventedDefault
      && r.nav == nav
      && (r.selected.Some? <==> nav.selectedIndex >= 0)
      && (nav.selectedIndex >= 0 ==> r.selected == Some(Item(results[nav.selectedIndex])))
  {
  }

  /** Escape closes the dropdown and drops the highlight in one step, without
      suppressing the default action. */
  lemma EscapeClosesAndClears(nav: Nav, results: seq<Autocomplete.Word>)
    requires nav.isOpen && |results| > 0
    ensures HandleKey(nav, results, Escape) == KeyStep(Initial, false, None)
  {
  }

  /** Everything that can happen to the navigation state. */
  datatype Event =
    | KeyDown(key: Key)
    | NewResults(results: seq<Autocomplete.Word>)
    | MouseDown(attached: bool, inside: bool)
    | SetIsOpen(open: bool)
    | SetSelectedIndex(index: int)

  /** The navigation state together with the list it currently navigates. */
  datatype Widget = Widget(nav: Nav, results: seq<Autocomplete.Word>)

  function Step(w: Widget, e: Event): Widget {
    match e
    case KeyDown(key) => w.(nav := HandleKey(w.nav, w.results, key).nav)
    case NewResults(results) => Widget(ResultsReplaced(w.nav), results)
    case MouseDown(attached, inside) => w.(nav := PointerDown(w.nav, attached, inside))
    case SetIsOpen(open) => w.(nav := w.nav.(isOpen := open))
    case SetSelectedIndex(index) => w.(nav := w.nav.(selectedIndex := index))
  }

  function Run(w: Widget, events: seq<Event>): Widget
    decreases |events|
  {
    if |events| == 0 then w else Run(Step(w, events[0]), events[1..])
  }

  predicate Valid(w: Widget) {
    InRange(w.nav, w.results)
  }

  /** Every event keeps the highlight in range except the raw index setter, which
      keeps it in range exactly when it is given an index in range. */
  lemma StepKeepsValid(w: Widget, e: Event)
    requires Valid(w)
    ensures !e.SetSelectedIndex? ==> Valid(Step(w, e))
    ensures e.SetSelectedIndex? ==> (Valid(Step(w, e)) <==> -1 <= e.index < |w.results|)
  {
  }

  /** Every call of the raw index setter in `events` names an index on the list
      current at that point of the run, as the hover highlight does. */
  predicate SettersInRange(w: Widget, events: seq<Event>)
    decreases |events|
  {
    |events| == 0 ||
    ((events[0].SetSelectedIndex? ==> -1 <= events[0].index < |w.results|)
     && SettersInRange(Step(w, events[0]), events[1..]))
  }

  /** From any valid state, and in particular from the initial one over any
      list, a run of key presses, result replacements, pointer presses,
      open/close calls and in-range index-setter calls keeps
      `-1 <= selectedIndex < |results|`. */
  lemma {:induction false} RunKeepsValid(w: Widget, events: seq<Event>)
    requires Valid(w)
    requires SettersInRange(w, events)
    ensures Valid(Run(w, events))
    decreases |events|
  {
    if |events| > 0 {
      StepKeepsValid(w, events[0]);
      RunKeepsValid(Step(w, events[0]), events[1..]);
    }
  }

  /** The initial state is valid over every list. */
  lemma InitialValid(results: seq<Autocomplete.Word>)
    ensures Valid(Widget(Initial, results))
  {
  }

  /** Along such a run, Enter never hands `onSelect` an undefined item. */
  lemma EnterAfterRunSelectsItem(results: seq<Autocomplete.Word>, events: seq<Event>)
    requires SettersInRange(Widget(Initial, results), events)
    ensures var w := Run(Widget(Initial, results), events);
      var r := HandleKey(w.nav, w.results, Enter);
      r.selected.Some? ==> r.selected.value.Item?
  {
    RunKeepsValid(Widget(Initial, results), events);
  }
}

=== FILE: wrappers.dfy ===
/** Optional values: the model's stand-in for TypeScript's `undefined` and `null`. */
module Wrappers {

  datatype Option<+T> = None | Some(value: T) {

    /** The wrapped value, or `default` when there is none (TypeScript's `x ?? default`). */
    function GetOr(default: T): (r: T)
      ensures Some? ==> r == value
      ensures None? ==> r == default
    {
      match this
      case Some(v) => v
      case None => default
    }
  }
}
